=== FILE: README.md ===
# MCP-X-Auto: a Dafny model of its deterministic core

MCP-X-Auto is a command-line client that writes tweets with a generative
text model, optionally attaches media, posts them at once or schedules
them, and keeps a history of what it posted; a small server publishes the
tweets through the platform's API, over a plain HTTP route and as a tool of
the Model Context Protocol. This project models the rules underneath that
glue as pure Dafny functions over strings, sequences and maps, with every
external call (the text model, the platform API, `fetch`, the filesystem,
the clock, the date parser) replaced by an abstract outcome passed in as a
parameter.

| file | module | models |
|---|---|---|
| `common.dfy` | `Common` | `Option` (a value that may be `undefined`), `Result` (return or throw) |
| `js_string.dfy` | `JsString` | the JavaScript string operations used: `slice(0, n)` with its negative-end rule, `trim`, `toLowerCase`, `includes`, `split(sep).pop()`, `split(sep)[0]` |
| `retry.dfy` | `Retry` | `generateContentWithRetry` as a loop over an abstract sequence of attempt outcomes |
| `tweet_text.dfy` | `TweetText` | truncation to 280 characters, the hashtag suggestion and choice, appending the hashtag line |
| `post_store.dfy` | `PostStore` | the history and schedule logs, history search, the re-post pick |
| `client_flow.dfy` | `ClientFlow` | posting now, scheduling, firing a job, re-posting, and when the history is written |
| `mcp_tool.dfy` | `McpTool` | `getMimeType` and `createPost` |
| `server.dfy` | `Server` | the session registry, message routing, the `/create-post` response |

A scheduled tweet is a timer plus one appended log entry that never
changes afterwards; nothing re-arms it when the client restarts. An
unknown file extension yields an `undefined` content type that is passed
on to the upload; no error is raised for it.

## Model

| member | source | states |
|---|---|---|
| `Retry.GenerateContentWithRetry` | client/index.js:25-42 | the loop makes at most `retries` attempts; it returns the first response after attempts that were all retried 503 errors; an error is rethrown when it is not a 503 or comes from the last attempt; with no attempt allowed it falls through to `undefined`; the run is the one the recursive definition gives |
| `Retry.RunRetryExplains` | client/index.js:25-42 | the recursive definition of the loop meets the non-iterative description of every possible run |
| `Retry.ExplainsUnique` | client/index.js:26-39 | the description of a run determines it: one sequence of outcomes admits one run |
| `Retry.FirstResponseReturned` | client/index.js:26-32 | if attempt k responds and every earlier attempt was a retried 503, the run returns that response after exactly k + 1 attempts |
| `Retry.ErrorRethrown` | client/index.js:33-39 | an error that is not a 503, or a 503 on the last allowed attempt, is rethrown at once after k + 1 attempts |
| `Retry.TwoOverloadsThenSuccess` | client/index.js:25-42 | with the default budget of 6, two 503 errors then a response yield that response on the third attempt |
| `TweetText.TruncateToLimit` | client/index.js:193-196 | a text over 280 characters becomes exactly its first 280; a shorter one is unchanged; the result never exceeds 280 (the edit path, lines 243-246, applies the same cut to newly typed text) |
| `TweetText.TruncateIdempotent` | client/index.js:193-196 | a property of the cut: a text within 280 characters passes it unchanged, so cutting twice is cutting once |
| `TweetText.SuggestionOf` | client/index.js:142-154 | the suggestion is the first line of the trimmed reply: a prefix of it with no line break, followed in the reply by a line break unless it is the whole reply; empty when the call failed |
| `TweetText.ChooseHashtags` | client/index.js:199-206 | the hashtag line is empty exactly when there was no suggestion; a non-blank edit replaces the suggestion, a blank one keeps it |
| `TweetText.BlankEditIsAllWhitespace` | client/index.js:203-205 | with a suggestion, an edit made only of whitespace keeps the suggestion and an edit with any other character replaces it |
| `TweetText.CombineHashtagsAsWritten` | client/index.js:207-216 | empty hashtags leave the text unchanged; if body, space and hashtags fit in 280 the result is their trimmed join; otherwise, with at most 279 hashtag characters, the body is cut to 279 − \|h\| characters and the result has at most 280 |
| `TweetText.OverlongHashtagsKeepBody` | client/index.js:212 | with 280 or more hashtag characters the cut end is negative and only \|h\| − 279 characters leave the end of the body |
| `TweetText.OverlongHashtagsExceedLimit` | client/index.js:207-216 | in that case a body and hashtag line without outer whitespace join to a tweet of \|t\| + 280 characters |
| `TweetText.CombineHashtags` | client/index.js:207-216 | the corrected append: agrees with the code for hashtag lines under 280 characters; otherwise the body is dropped; for a non-empty hashtag line, the result never exceeds max(280, \|h\|) |
| `TweetText.CombineHashtagsDropsBody` | client/index.js:210-215 | with the correction, a hashtag line that leaves no room becomes the whole tweet |
| `TweetText.ShapeGenerated` | client/index.js:192-216 | as the program does it: a generated text with a hashtag line of at most 279 characters reaches the prompt with at most 280 characters; with no suggestion it is only truncated |
| `TweetText.ShapeGeneratedCorrected` | client/index.js:208 | with the corrected append the total length stays within 280, as the comment at this line intends, for every hashtag line of at most 280 characters, and agrees with the program below 280 |
| `PostStore.SaveTweetToHistory` | client/index.js:72-84 | saving appends exactly one `{tweet, timestamp}` entry at the end and keeps the earlier ones; a missing or corrupt file counts as empty |
| `PostStore.SaveScheduledTweet` | client/index.js:156-167 | the same append-one rule for `{tweet, dateTime}` entries of the schedule log |
| `PostStore.AppendAllKeepsOrder` | client/index.js:82-83 | a run of saves leaves the loaded log in front and the new entries behind it, in saving order |
| `PostStore.LoadForView` | client/index.js:87-95 | the history view gives up on a corrupt file, and reads a missing one as empty |
| `PostStore.SearchHistory` | client/index.js:105-107 | one pass over the log returns only matching entries, and exactly the list the reference filter keeps |
| `PostStore.FilterKeepsExactlyMatches` | client/index.js:107 | the filter keeps exactly the entries whose lowercased text contains the lowercased query, as a subsequence of the log |
| `PostStore.EmptySearchListsAll` | client/index.js:107 | an empty query matches every entry, so the search lists the whole log |
| `PostStore.SearchIgnoresCase` | client/index.js:107 | lowercasing the query or the entry's text does not change whether it matches |
| `PostStore.SelectForRepost` | client/index.js:118-120 | an entry is picked exactly when the parsed number is between 1 and the log length, and it is entry number idx counted from 1 |
| `ClientFlow.RecordPostAttempt` | client/index.js:282-294 | after a post request that got a JSON body back, the log is what was loaded (empty if missing or corrupt) followed by one new `{tweet, timestamp}` entry; without a JSON body the file is left as it was |
| `ClientFlow.FailedPostStillRecorded` | client/index.js:288-290 | a post the server answers with status 500 is still appended to the history |
| `ClientFlow.AcceptScheduleTime` | client/index.js:274-279 | a time is accepted exactly when it parses and is not before now; a time equal to now is accepted |
| `ClientFlow.Submit` | client/index.js:268-298 | a declined confirmation sends, schedules and records nothing; a confirmed tweet posted now sends the text and media path and records the attempt, leaving the schedule log alone; an accepted time arms one job and appends one schedule entry without touching the history; a refused time changes nothing |
| `ClientFlow.Fire` | client/index.js:308-323 | a firing job is exactly a confirmed post of its stored text and media path made at its firing time: the same request and the same history entry; the schedule log is not touched |
| `ClientFlow.ScheduleThenFireMatchesPostNow` | client/index.js:308-324 | scheduling and then firing leaves the same history and sends the same request as posting at the firing moment |
| `ClientFlow.ClassifyAction` | client/index.js:103-118 | a blank answer leaves the view, `s` searches, any other answer is a pick by its parsed number |
| `ClientFlow.RepostFromHistory` | client/index.js:118-135 | a request is sent exactly when the log is readable, the index is in range and the user confirms; it carries the picked text and no media path, and its reply is recorded as for any post |
| `McpTool.MimeOfExtension` | server/mcp.tool.js:43-49 | the branches of `getMimeType` agree with the table jpg/jpeg→image/jpeg, png→image/png, gif→image/gif, mp4/m4v→video/mp4, mov→video/quicktime, and give `undefined` for every extension outside it |
| `McpTool.AfterLastOfDotted` | server/mcp.tool.js:42 | the text after the last dot of `stem.ext` is `ext`, whatever the stem holds |
| `McpTool.MimeTypeOfDottedName` | server/mcp.tool.js:42-47 | the content type of `stem.ext` depends only on `ext` lowercased: jpg and jpeg give image/jpeg, png image/png, gif image/gif, mp4 and m4v video/mp4, mov video/quicktime |
| `McpTool.MimeTypeOfUndottedName` | server/mcp.tool.js:42 | a name with no dot is its own extension |
| `McpTool.MimeTypeIgnoresCase` | server/mcp.tool.js:42-43 | `photo.JPG` gives image/jpeg |
| `McpTool.MimeTypeUnknownExtension` | server/mcp.tool.js:48-49 | `doc.pdf` gives `undefined`, not an error |
| `McpTool.CreatePost` | server/mcp.tool.js:13-39 | an upload is attempted exactly when a non-empty media path is given, with that path and its content type; a failed upload throws `Failed to upload media: ` plus the cause and sends no tweet; the tweet carries the status and exactly the uploaded id (none when the id is empty or there was no media); the result is one text item `Tweeted: ` plus the status, plus ` [with media]` exactly when an id was attached; a failed tweet call's error passes through |
| `Server.Connect` | server/index.js:53-55 | connecting stores the transport under its session id and leaves every other entry unchanged |
| `Server.Close` | server/index.js:56-58 | closing removes only that session id and leaves every other entry unchanged |
| `Server.RouteMessage` | server/index.js:62-70 | a message for a registered session goes to its transport; any other gets status 400 with body `No transport found for sessionId` |
| `Server.ConnectThenRoute` | server/index.js:53-66 | a message for a just-connected session reaches that session's transport |
| `Server.CloseThenRoute` | server/index.js:56-69 | after a close that session gets 400 and every other session is routed as before |
| `Server.ConnectCloseRestores` | server/index.js:53-58 | connecting and then closing a new session restores the registry |
| `Server.CreatePostResponse` | server/index.js:72-81 | success answers 200 with `Tweet posted successfully!`; failure answers 500 with `Failed to post tweet.` and the error's message |
| `Server.HandleCreatePost` | server/index.js:72-81 | the route answers 200 exactly when the tweet call succeeded, and 500 otherwise |
| `Server.UploadFailureResponse` | server/index.js:74-80 | when the one upload request for the media file fails, the HTTP client gets a 500 whose error is the wrapped upload message |

## Findings

| source | as written | input that shows it | evidently intended | confidence | as-written member | corrected member |
|---|---|---|---|---|---|---|
| client/index.js:212 | the body is cut with end 280 − \|h\| − 1, which is negative once the hashtag line has 280 or more characters, and a negative end makes `slice` count back from the end of the body | a 100-character body and a 280-character hashtag line, neither with outer whitespace, give a 380-character tweet | the comment promises a total of at most 280; when the hashtags leave no room the body should be dropped, not kept | medium; not executed | `TweetText.OverlongHashtagsExceedLimit` | `TweetText.CombineHashtags` |

`TweetText.ShapeGenerated` composes the append as written and keeps the
280 bound only for hashtag lines under 280 characters;
`TweetText.ShapeGeneratedCorrected` composes the corrected append and keeps
it for every hashtag line of at most 280 characters.

## Left out

- The delay between attempts (`setTimeout`), console output, the readline prompts, the menu loop and chat mode: interactive I/O with no behaviour beyond dispatch.
- Retry.GenerateContentWithRetry: the text model's answers are an abstract sequence that must hold at least `retries` outcomes; the prompt and the response's object shape are not modelled.
- The generation-failure branch of compose mode (client/index.js:181-190): both of its cases log and return to the menu.
- The calls to the generative-text SDK, the platform SDK and `fetch`: they are abstract outcomes (`Attempt`, `UploadOutcome`, `TweetOutcome`, `PostReply`).
- The filesystem, JSON text and the error log file (client/index.js:17-23): a log file is `Absent`, `Unreadable` or the array it holds; a file holding JSON that is not an array, and write failures, are not modelled.
- PostStore.SearchHistory: entries without a `tweet` field, which would make the filter throw, are not modelled.
- Date parsing, `parseInt`, ISO timestamps and `new Date()`: parsed values (`Option<int>`, `None` for NaN), the current time and the timestamp text are parameters.
- The timer library's firing of scheduled jobs: `ClientFlow.Fire` models what a firing job does, not when it runs; jobs do not survive a restart in the code and are not re-armed here.
- Resolving and checking media paths (`path.resolve`, `fs.existsSync`, client/index.js:218-256) and the parsing of the menu answers (`y`, `now`/`schedule`, `a`/`e`/`r`/`c`): the model takes their results as inputs.
- TweetText.TruncateToLimit: lengths count Unicode scalar values; JavaScript's `length` counts UTF-16 code units, so characters outside the Basic Multilingual Plane are measured differently. The same holds for every length in `TweetText`.
- PostStore.SearchHistory and McpTool.MimeTypeOfDottedName: `toLowerCase` is modelled on ASCII letters only; other case mappings are not.
- Server.RouteMessage: the registry is a map keyed by the session id string; keys inherited from JavaScript's object prototype (such as `constructor`) and a missing query parameter (read as the key `undefined`) are not modelled.
- The `addTwoNumbers` tool (server/index.js:18-36): floating-point arithmetic used only as a protocol smoke test.
- The registration of `createPost` as a protocol tool (server/index.js:38-46), the event-stream transport itself and the server wiring: the tool handler passes its arguments straight to `McpTool.CreatePost`.

=== FILE: client_flow.dfy ===
/** What the client does once a tweet is confirmed: post it now through
    the server's `/create-post` route or schedule it, fire a scheduled
    tweet, and re-post an entry picked from the history view. Each path
    ends in the durable logs of `PostStore`. The HTTP call is abstracted
    to what `res.json()` gave. */
module ClientFlow {
  import opened Common
  import opened JsString
  import opened PostStore
  import Server

  /** What `fetch` followed by `res.json()` gave: a JSON body (whatever
      the HTTP status), or an error from the network or from parsing. */
  datatype PostReply = JsonReply(message: string) | NoJson(error: string)

  /** The body sent to `/create-post`; `None` stands for a missing
      `mediaPath` field. */
  datatype PostRequest = PostRequest(status: string, mediaPath: Option<string>)

  /** After a post request: the tweet is saved to the history whenever a
      JSON body came back, and nothing is saved otherwise. */
  function RecordPostAttempt(history: StoreFile<HistoryEntry>, tweet: string, timestamp: string,
                             reply: PostReply): (h: StoreFile<HistoryEntry>)
    ensures reply.JsonReply? ==>
              h.Stored? && h.entries == LoadOrEmpty(history) + [HistoryEntry(tweet, timestamp)]
    ensures reply.NoJson? ==> h == history
  {
    match reply
    case JsonReply(_) => SaveTweetToHistory(history, tweet, timestamp)
    case NoJson(_) => history
  }

  /** The server answers every `/create-post` with a JSON body. */
  function ReplyFromServer(resp: Server.HttpResponse): PostReply {
    JsonReply(resp.message)
  }

  /** A post the server reports as failed (status 500) is still saved to
      the history, with the text that was sent. */
  lemma FailedPostStillRecorded(history: StoreFile<HistoryEntry>, tweet: string, timestamp: string,
                                resp: Server.HttpResponse)
    requires resp.status == 500
    ensures LoadOrEmpty(RecordPostAttempt(history, tweet, timestamp, ReplyFromServer(resp)))
            == LoadOrEmpty(history) + [HistoryEntry(tweet, timestamp)]
  {
  }

  /** Schedule-time validation: a date that does not parse (`None`) or
      lies strictly before `now` is refused; `now` itself is accepted. */
  function AcceptScheduleTime(parsed: Option<int>, now: int): (fireAt: Option<int>)
    ensures fireAt.Some? <==> parsed.Some? && parsed.value >= now
    ensures fireAt.Some? ==> fireAt.value == parsed.value
  {
    match parsed
    case None => None
    case Some(t) => if t < now then None else Some(t)
  }

  /** A job handed to the timer library: it posts `tweet` at `fireAt`. */
  datatype ScheduledJob = ScheduledJob(tweet: string, mediaPath: string, fireAt: int)

  /** The answer to "Post now or schedule for later?". */
  datatype Choice = PostNow(reply: PostReply) | ScheduleFor(parsed: Option<int>)

  datatype Stores = Stores(history: StoreFile<HistoryEntry>, scheduled: StoreFile<ScheduledEntry>)

  datatype Submission = Submission(stores: Stores, posted: Option<PostRequest>, job: Option<ScheduledJob>)

  /** The tweet at the confirmation prompt: declined, it is dropped;
      confirmed, it is posted now or scheduled. */
  function Submit(stores: Stores, tweet: string, mediaPath: string, confirmed: bool, choice: Choice,
                  now: int, timestamp: string): (s: Submission)
    // a declined tweet is neither sent, scheduled nor recorded
    ensures !confirmed ==> s == Submission(stores, None, None)
    // posting now sends the text and media path and records the attempt
    ensures confirmed && choice.PostNow? ==>
              && s.posted == Some(PostRequest(tweet, Some(mediaPath)))
              && s.job.None?
              && s.stores.history == RecordPostAttempt(stores.history, tweet, timestamp, choice.reply)
              && s.stores.scheduled == stores.scheduled
    // an accepted time arms one job and appends one schedule entry
    ensures confirmed && choice.ScheduleFor? ==>
              && s.posted.None?
              && s.stores.history == stores.history
              && (s.job.Some? <==> AcceptScheduleTime(choice.parsed, now).Some?)
    ensures confirmed && choice.ScheduleFor? && s.job.Some? ==>
              && s.job.value == ScheduledJob(tweet, mediaPath, choice.parsed.value)
              && s.stores.scheduled ==
                   SaveScheduledTweet(stores.scheduled, tweet, choice.parsed.value)
    // a refused time changes nothing
    ensures confirmed && choice.ScheduleFor? && s.job.None? ==> s.stores == stores
  {
    if !confirmed then Submission(stores, None, None)
    else match choice
    case PostNow(reply) =>
      Submission(stores.(history := RecordPostAttempt(stores.history, tweet, timestamp, reply)),
                 Some(PostRequest(tweet, Some(mediaPath))), None)
    case ScheduleFor(parsed) =>
      match AcceptScheduleTime(parsed, now)
      case None => Submission(stores, None, None)
      case Some(t) =>
        Submission(stores.(scheduled := SaveScheduledTweet(stores.scheduled, tweet, t)),
                   None, Some(ScheduledJob(tweet, mediaPath, t)))
  }

  /** A scheduled job firing: it sends the same request, and records the
      attempt the same way, as a confirmed post made at the firing moment;
      the schedule log is left as it is. */
  function Fire(stores: Stores, job: ScheduledJob, reply: PostReply, timestamp: string): (s: Submission)
    ensures s == Submit(stores, job.tweet, job.mediaPath, true, PostNow(reply), job.fireAt, timestamp)
    ensures s.stores.scheduled == stores.scheduled
  {
    Submission(stores.(history := RecordPostAttempt(stores.history, job.tweet, timestamp, reply)),
               Some(PostRequest(job.tweet, Some(job.mediaPath))), None)
  }

  /** Scheduling and later firing leave the history exactly as posting
      at the firing moment would, and send the same request. */
  lemma ScheduleThenFireMatchesPostNow(stores: Stores, tweet: string, mediaPath: string,
                                       parsed: Option<int>, now: int, reply: PostReply,
                                       t1: string, t2: string)
    requires AcceptScheduleTime(parsed, now).Some?
    ensures
      var s := Submit(stores, tweet, mediaPath, true, ScheduleFor(parsed), now, t1);
      var direct := Submit(stores, tweet, mediaPath, true, PostNow(reply), now, t2);
      && s.job.Some?
      && Fire(s.stores, s.job.value, reply, t2).stores.history == direct.stores.history
      && Fire(s.stores, s.job.value, reply, t2).posted == direct.posted
  {
  }

  /** The answer at the history prompt. */
  datatype ViewAction = Leave | Search | Pick(index: Option<int>)

  /** A blank answer leaves, `s` or `S` (untrimmed) searches, anything
      else is read with `parseInt` (`parsed`, `None` for NaN). */
  function ClassifyAction(action: string, parsed: Option<int>): (a: ViewAction)
    ensures Trim(action) == [] ==> a == Leave
    ensures Trim(action) != [] && Lower(action) == "s" ==> a == Search
    ensures a.Pick? <==> Trim(action) != [] && Lower(action) != "s"
    ensures a.Pick? ==> a.index == parsed
  {
    if Trim(action) == [] then Leave
    else if Lower(action) == "s" then Search
    else Pick(parsed)
  }

  datatype Repost = Repost(history: StoreFile<HistoryEntry>, posted: Option<PostRequest>)

  /** Re-posting from the history view: a readable log, an index in range
      and a confirmation lead to one request without a media path, whose
      JSON reply appends a new entry with the same text. */
  function RepostFromHistory(history: StoreFile<HistoryEntry>, idx: Option<int>, confirmed: bool,
                             reply: PostReply, timestamp: string): (r: Repost)
    ensures r.posted.Some? <==>
              && !history.Unreadable?
              && idx.Some? && 1 <= idx.value <= |LoadOrEmpty(history)|
              && confirmed
    ensures r.posted.Some? ==>
              && r.posted.value == PostRequest(LoadOrEmpty(history)[idx.value - 1].tweet, None)
              && r.history == RecordPostAttempt(history, r.posted.value.status, timestamp, reply)
    ensures r.posted.None? ==> r.history == history
  {
    match LoadForView(history)
    case None => Repost(history, None)
    case Some(entries) =>
      match SelectForRepost(entries, idx)
      case None => Repost(history, None)
      case Some(tweet) =>
        if confirmed then
          Repost(RecordPostAttempt(history, tweet, timestamp, reply), Some(PostRequest(tweet, None)))
        else Repost(history, None)
  }
}

=== FILE: common.dfy ===
/** Failure-carrying wrappers shared by every module of the model.
    `Option` stands for a JavaScript value that may be `undefined`;
    `Result` stands for a call that either returns or throws an error
    carrying a message. */
module Common {

  datatype Option<+T> = None | Some(value: T)

  datatype Result<+R> = Success(value: R) | Failure(message: string)
}

=== FILE: js_string.dfy ===
/** The JavaScript string primitives the program relies on, each written
    out with the behaviour the ECMAScript standard gives it: `slice(0, n)`,
    `trim`, `toLowerCase`, `includes`, `split(sep).pop()` and
    `split(sep)[0]`. Lengths count Dafny characters (Unicode scalar
    values). */
module JsString {

  function Min(a: int, b: int): int { if a <= b then a else b }
  function Max(a: int, b: int): int { if a <= b then b else a }

  /** `s.slice(0, end)`: a negative `end` counts back from the end of the
      string (as ECMA-262 defines `String.prototype.slice`), an `end` past
      the end stops at the end. */
  function Slice(s: string, end: int): (r: string)
    ensures |r| <= |s| && r == s[..|r|]
    ensures end < 0 ==> |r| == Max(|s| + end, 0)
    ensures 0 <= end ==> |r| == Min(end, |s|)
  {
    if end < 0 then
      (if |s| + end <= 0 then [] else s[..|s| + end])
    else if end <= |s| then s[..end]
    else s
  }

  /** The WhiteSpace and LineTerminator code points that `trim` removes. */
  predicate IsWhitespace(c: char) {
    || c == ' ' || c == '\t' || c == '\n' || c == '\r'
    || c == '\U{000B}' || c == '\U{000C}' || c == '\U{00A0}' || c == '\U{1680}'
    || ('\U{2000}' <= c <= '\U{200A}')
    || c == '\U{2028}' || c == '\U{2029}' || c == '\U{202F}' || c == '\U{205F}'
    || c == '\U{3000}' || c == '\U{FEFF}'
  }

  /** `s` neither starts nor ends with whitespace. */
  predicate Trimmed(s: string) {
    |s| == 0 || (!IsWhitespace(s[0]) && !IsWhitespace(s[|s| - 1]))
  }

  function TrimStart(s: string): (r: string)
    ensures |r| <= |s| && r == s[|s| - |r|..]
    ensures forall i :: 0 <= i < |s| - |r| ==> IsWhitespace(s[i])
    ensures |r| == 0 || !IsWhitespace(r[0])
  {
    if |s| > 0 && IsWhitespace(s[0]) then TrimStart(s[1..]) else s
  }

  function TrimEnd(s: string): (r: string)
    ensures |r| <= |s| && r == s[..|r|]
    ensures forall i :: |r| <= i < |s| ==> IsWhitespace(s[i])
    ensures |r| == 0 || !IsWhitespace(r[|r| - 1])
  {
    if |s| > 0 && IsWhitespace(s[|s| - 1]) then TrimEnd(s[..|s| - 1]) else s
  }

  /** `s.trim()`: the longest inner piece of `s` with no whitespace at
      either end, obtained by dropping only whitespace. */
  function Trim(s: string): (r: string)
    ensures Trimmed(r)
    ensures |r| <= |s|
    ensures exists i :: 0 <= i <= |s| - |r| && InnerPiece(s, r, i)
    ensures Trimmed(s) ==> r == s
  {
    TrimInside(s);
    if Trimmed(s) then
      TrimStartKeepsTrimmed(s);
      TrimEndKeepsTrimmed(s);
      TrimEnd(TrimStart(s))
    else TrimEnd(TrimStart(s))
  }

  /** `r` occurs in `s` at `i`, and everything of `s` around that
      occurrence is whitespace. */
  predicate InnerPiece(s: string, r: string, i: int) {
    && OccursAt(s, r, i)
    && (forall j :: 0 <= j < i ==> IsWhitespace(s[j]))
    && (forall j :: i + |r| <= j < |s| ==> IsWhitespace(s[j]))
  }

  lemma TrimInside(s: string)
    ensures InnerPiece(s, TrimEnd(TrimStart(s)), |s| - |TrimStart(s)|)
  {
    var a := TrimStart(s);
    var r := TrimEnd(a);
    var off := |s| - |a|;
    PrefixOfSuffixOccurs(s, a, r);
    forall j | off + |r| <= j < |s|
      ensures IsWhitespace(s[j])
    {
      assert a[j - off] == s[j];
    }
  }

  lemma PrefixOfSuffixOccurs(s: string, a: string, r: string)
    requires |a| <= |s| && a == s[|s| - |a|..]
    requires |r| <= |a| && r == a[..|r|]
    ensures OccursAt(s, r, |s| - |a|)
  {
    assert s[|s| - |a|..][..|r|] == s[|s| - |a|..|s| - |a| + |r|];
  }

  lemma TrimStartKeepsTrimmed(s: string)
    requires Trimmed(s)
    ensures TrimStart(s) == s
  {
  }

  lemma TrimEndKeepsTrimmed(s: string)
    requires Trimmed(s)
    ensures TrimEnd(s) == s
  {
  }

  /** Only whitespace is ever removed: a string of whitespace trims to the
      empty string and nothing else does. */
  lemma TrimEmptyIffAllWhitespace(s: string)
    ensures Trim(s) == [] <==> forall i :: 0 <= i < |s| ==> IsWhitespace(s[i])
  {
    var a := TrimStart(s);
    if !forall i :: 0 <= i < |s| ==> IsWhitespace(s[i]) {
      var k :| 0 <= k < |s| && !IsWhitespace(s[k]);
      assert a[k - (|s| - |a|)] == s[k];
    }
  }

  function LowerChar(c: char): char {
    if 'A' <= c <= 'Z' then (c as int - 'A' as int + 'a' as int) as char else c
  }

  /** `s.toLowerCase()` restricted to the ASCII letters. */
  function Lower(s: string): (r: string)
    ensures |r| == |s|
    ensures forall i :: 0 <= i < |s| ==> r[i] == LowerChar(s[i])
  {
    if s == [] then [] else [LowerChar(s[0])] + Lower(s[1..])
  }

  lemma LowerIdempotent(s: string)
    ensures Lower(Lower(s)) == Lower(s)
  {
  }

  predicate OccursAt(s: string, sub: string, i: int) {
    0 <= i && i + |sub| <= |s| && s[i..i + |sub|] == sub
  }

  /** `s.includes(sub)`. */
  predicate Contains(s: string, sub: string) {
    exists i | 0 <= i <= |s| - |sub| :: OccursAt(s, sub, i)
  }

  /** The empty string occurs in every string. */
  lemma ContainsEmpty(s: string)
    ensures Contains(s, [])
  {
    assert OccursAt(s, [], 0);
  }

  /** `s.split(sep).pop()`: the text after the last `sep`, or all of `s`
      when `sep` does not occur. */
  function AfterLast(s: string, sep: char): (r: string)
    ensures |r| <= |s| && r == s[|s| - |r|..]
    ensures sep !in r
    ensures |r| < |s| ==> s[|s| - |r| - 1] == sep
    ensures sep !in s ==> r == s
  {
    if |s| == 0 then []
    else if s[|s| - 1] == sep then []
    else
      var r := AfterLast(s[..|s| - 1], sep) + [s[|s| - 1]];
      assert s[..|s| - 1] + [s[|s| - 1]] == s;
      r
  }

  /** `s.split(sep)[0]`: the text before the first `sep`, or all of `s`. */
  function BeforeFirst(s: string, sep: char): (r: string)
    ensures |r| <= |s| && r == s[..|r|]
    ensures sep !in r
    ensures |r| < |s| ==> s[|r|] == sep
  {
    if |s| == 0 then []
    else if s[0] == sep then []
    else [s[0]] + BeforeFirst(s[1..], sep)
  }
}

=== FILE: mcp_tool.dfy ===
/** The publish gateway of the server: `createPost`, which optionally
    uploads one media file and then sends the tweet, and `getMimeType`,
    which picks the content type announced for the upload. The platform's
    upload and tweet calls are abstract functions from request to
    outcome. */
module McpTool {
  import opened Common
  import opened JsString

  /** The content types `getMimeType` knows, by lowercased extension. */
  const MimeTable: map<string, string> := map[
    "jpg" := "image/jpeg", "jpeg" := "image/jpeg",
    "png" := "image/png",
    "gif" := "image/gif",
    "mp4" := "video/mp4", "m4v" := "video/mp4",
    "mov" := "video/quicktime"
  ]

  /** `filePath.split('.').pop().toLowerCase()`. */
  function Extension(path: string): string {
    Lower(AfterLast(path, '.'))
  }

  /** `getMimeType`: the content type for the extension, or `undefined`
      (here `None`) for any extension not in the table. */
  function GetMimeType(path: string): Option<string> {
    MimeOfExtension(Extension(path))
  }

  /** The branches of `getMimeType` after the extension is known. */
  function MimeOfExtension(ext: string): (r: Option<string>)
    ensures r.Some? <==> ext in MimeTable
    ensures r.Some? ==> r.value == MimeTable[ext]
  {
    if ext == "jpg" || ext == "jpeg" then Some("image/jpeg")
    else if ext == "png" then Some("image/png")
    else if ext == "gif" then Some("image/gif")
    else if ext == "mp4" || ext == "m4v" then Some("video/mp4")
    else if ext == "mov" then Some("video/quicktime")
    else None
  }

  /** The text after the last dot is the extension, whatever precedes
      that dot. */
  lemma {:induction false} AfterLastOfDotted(stem: string, ext: string)
    requires '.' !in ext
    ensures AfterLast(stem + "." + ext, '.') == ext
    decreases |ext|
  {
    var s := stem + "." + ext;
    if ext != [] {
      var init := ext[..|ext| - 1];
      assert s[..|s| - 1] == stem + "." + init;
      AfterLastOfDotted(stem, init);
      assert init + [ext[|ext| - 1]] == ext;
    }
  }

  /** `getMimeType` of a name ending in `.ext` is decided by `ext` alone,
      ignoring ASCII case. */
  lemma MimeTypeOfDottedName(stem: string, ext: string)
    requires '.' !in ext
    ensures GetMimeType(stem + "." + ext) ==
              if Lower(ext) in MimeTable then Some(MimeTable[Lower(ext)]) else None
  {
    AfterLastOfDotted(stem, ext);
  }

  /** A name without a dot is its own extension. */
  lemma MimeTypeOfUndottedName(name: string)
    requires '.' !in name
    ensures GetMimeType(name) ==
              if Lower(name) in MimeTable then Some(MimeTable[Lower(name)]) else None
  {
  }

  lemma MimeTypeIgnoresCase()
    ensures GetMimeType("photo.JPG") == Some("image/jpeg")
  {
    assert "photo.JPG" == "photo" + "." + "JPG";
    MimeTypeOfDottedName("photo", "JPG");
    assert Lower("JPG") == "jpg";
  }

  /** An extension outside the table yields no content type, not an
      error. */
  lemma MimeTypeUnknownExtension()
    ensures GetMimeType("doc.pdf") == None
  {
    assert "doc.pdf" == "doc" + "." + "pdf";
    MimeTypeOfDottedName("doc", "pdf");
    assert Lower("pdf") == "pdf";
  }

  /** The media upload request: the file named by the path, announced with
      the content type `getMimeType` chose for it. */
  datatype UploadRequest = UploadRequest(path: string, mimeType: Option<string>)

  /** What reading the file and uploading it gave: a media id, or an error
      with its message. */
  datatype UploadOutcome = Uploaded(mediaId: string) | UploadFailed(cause: string)

  /** The tweet request: text and the media ids attached to it. */
  datatype TweetRequest = TweetRequest(text: string, mediaIds: seq<string>)

  datatype TweetOutcome = Posted | TweetFailed(message: string)

  /** One `{type: "text", text}` item of a tool result. */
  datatype ToolContent = TextContent(text: string)

  /** The calls `createPost` made and what it returned or threw. */
  datatype CreatePostRun = CreatePostRun(
    uploadCall: Option<UploadRequest>,
    tweetCall: Option<TweetRequest>,
    result: Result<seq<ToolContent>>)

  /** A media path is used only when it is present and not empty. */
  predicate HasMedia(mediaPath: Option<string>) {
    mediaPath.Some? && mediaPath.value != []
  }

  const UploadErrorPrefix: string := "Failed to upload media: "
  const TweetedPrefix: string := "Tweeted: "
  const WithMediaSuffix: string := " [with media]"

  /** The tweet step; `mediaId` is empty when no media id was obtained,
      which is what JavaScript's falsy `undefined` and `''` both mean. */
  function SendTweet(status: string, mediaId: string, uploadCall: Option<UploadRequest>,
                     tweet: TweetRequest -> TweetOutcome): (run: CreatePostRun)
    ensures run.uploadCall == uploadCall
    ensures run.tweetCall == Some(TweetRequest(status, if mediaId != [] then [mediaId] else []))
    ensures run.result.Success? <==> tweet(run.tweetCall.value).Posted?
    ensures run.result.Failure? ==> run.result.message == tweet(run.tweetCall.value).message
    ensures run.result.Success? ==>
              run.result.value == [TextContent(TweetedPrefix + status +
                                               (if mediaId != [] then WithMediaSuffix else []))]
  {
    var req := if mediaId != [] then TweetRequest(status, [mediaId]) else TweetRequest(status, []);
    match tweet(req)
    case TweetFailed(m) => CreatePostRun(uploadCall, Some(req), Failure(m))
    case Posted =>
      var suffix := if mediaId != [] then WithMediaSuffix else [];
      CreatePostRun(uploadCall, Some(req), Success([TextContent(TweetedPrefix + status + suffix)]))
  }

  /** `createPost(status, mediaPath)`. */
  function CreatePost(status: string, mediaPath: Option<string>,
                      upload: UploadRequest -> UploadOutcome,
                      tweet: TweetRequest -> TweetOutcome): (run: CreatePostRun)
    // an upload is attempted exactly when a media path is given, for that
    // path and its content type
    ensures run.uploadCall.Some? <==> HasMedia(mediaPath)
    ensures run.uploadCall.Some? ==>
              run.uploadCall.value == UploadRequest(mediaPath.value, GetMimeType(mediaPath.value))
    // a failed upload is wrapped and no tweet is sent
    ensures run.uploadCall.Some? && upload(run.uploadCall.value).UploadFailed? ==>
              && run.tweetCall.None?
              && run.result == Failure(UploadErrorPrefix + upload(run.uploadCall.value).cause)
    // otherwise the tweet carries the status and at most the one uploaded id
    ensures run.tweetCall.None? ==> run.uploadCall.Some? && upload(run.uploadCall.value).UploadFailed?
    ensures run.tweetCall.Some? ==> run.tweetCall.value.text == status
    ensures !HasMedia(mediaPath) ==> run.tweetCall == Some(TweetRequest(status, []))
    ensures run.uploadCall.Some? && upload(run.uploadCall.value).Uploaded? ==>
              run.tweetCall.Some? &&
              run.tweetCall.value.mediaIds ==
                (var id := upload(run.uploadCall.value).mediaId; if id != [] then [id] else [])
    // the result is the tweet call's outcome
    ensures run.result.Success? <==> run.tweetCall.Some? && tweet(run.tweetCall.value).Posted?
    ensures run.tweetCall.Some? && tweet(run.tweetCall.value).TweetFailed? ==>
              run.result == Failure(tweet(run.tweetCall.value).message)
    ensures run.result.Success? ==>
              run.result.value ==
                [TextContent(TweetedPrefix + status +
                             (if run.tweetCall.value.mediaIds != [] then WithMediaSuffix else []))]
  {
    if HasMedia(mediaPath) then
      var req := UploadRequest(mediaPath.value, GetMimeType(mediaPath.value));
      match upload(req)
      case UploadFailed(cause) => CreatePostRun(Some(req), None, Failure(UploadErrorPrefix + cause))
      case Uploaded(id) => SendTweet(status, id, Some(req), tweet)
    else SendTweet(status, [], None, tweet)
  }
}

=== FILE: post_store.dfy ===
/** The client's two durable logs, the tweet history and the scheduled
    tweets, seen as the sequence a JSON file holds, together with the
    history search and the positional pick used for re-posting. */
module PostStore {
  import opened Common
  import opened JsString

  /** What reading a log file gives: no file, a file that does not parse,
      or the array it holds. */
  datatype StoreFile<T> = Absent | Unreadable | Stored(entries: seq<T>)

  /** One entry of `tweet_history.json`; the timestamp is the ISO text of
      the moment of saving. */
  datatype HistoryEntry = HistoryEntry(tweet: string, timestamp: string)

  /** One entry of `scheduled_tweets.json`; the date is the accepted
      schedule time. */
  datatype ScheduledEntry = ScheduledEntry(tweet: string, dateTime: int)

  /** The load step of both save functions: a missing or corrupt file
      counts as an empty log. */
  function LoadOrEmpty<T>(f: StoreFile<T>): (entries: seq<T>)
    ensures f.Stored? ==> entries == f.entries
    ensures !f.Stored? ==> entries == []
  {
    match f
    case Stored(es) => es
    case _ => []
  }

  /** Load, or start empty, then append one entry and write the file. */
  function Append<T>(f: StoreFile<T>, e: T): (f': StoreFile<T>)
    ensures f'.Stored?
    ensures |f'.entries| == |LoadOrEmpty(f)| + 1
    ensures f'.entries[..|LoadOrEmpty(f)|] == LoadOrEmpty(f)
    ensures f'.entries[|LoadOrEmpty(f)|] == e
  {
    Stored(LoadOrEmpty(f) + [e])
  }

  /** `saveTweetToHistory`. */
  function SaveTweetToHistory(f: StoreFile<HistoryEntry>, tweet: string, timestamp: string)
    : (f': StoreFile<HistoryEntry>)
    ensures f'.Stored? && |f'.entries| >= 1
    ensures f'.entries[|f'.entries| - 1] == HistoryEntry(tweet, timestamp)
    ensures f.Stored? ==> f'.entries == f.entries + [HistoryEntry(tweet, timestamp)]
    ensures !f.Stored? ==> f'.entries == [HistoryEntry(tweet, timestamp)]
  {
    Append(f, HistoryEntry(tweet, timestamp))
  }

  /** `saveScheduledTweet`. */
  function SaveScheduledTweet(f: StoreFile<ScheduledEntry>, tweet: string, dateTime: int)
    : (f': StoreFile<ScheduledEntry>)
    ensures f'.Stored? && |f'.entries| >= 1
    ensures f'.entries[|f'.entries| - 1] == ScheduledEntry(tweet, dateTime)
    ensures f.Stored? ==> f'.entries == f.entries + [ScheduledEntry(tweet, dateTime)]
    ensures !f.Stored? ==> f'.entries == [ScheduledEntry(tweet, dateTime)]
  {
    Append(f, ScheduledEntry(tweet, dateTime))
  }

  /** Saving several entries one after another. */
  function AppendAll<T>(f: StoreFile<T>, es: seq<T>): StoreFile<T>
    decreases |es|
  {
    if es == [] then f else AppendAll(Append(f, es[0]), es[1..])
  }

  /** The log is append-only: a run of saves leaves what was loaded in
      front and the new entries behind it, in the order they were saved. */
  lemma {:induction false} AppendAllKeepsOrder<T>(f: StoreFile<T>, es: seq<T>)
    ensures LoadOrEmpty(AppendAll(f, es)) == LoadOrEmpty(f) + es
    decreases |es|
  {
    if es != [] {
      var f1 := Append(f, es[0]);
      assert AppendAll(f, es) == AppendAll(f1, es[1..]);
      AppendAllKeepsOrder(f1, es[1..]);
      assert f1.entries == LoadOrEmpty(f) + [es[0]];
      assert LoadOrEmpty(f) + [es[0]] + es[1..] == LoadOrEmpty(f) + es;
    }
  }

  /** The load step of the history view, which, unlike the save step,
      gives up on a corrupt file instead of treating it as empty. */
  function LoadForView(f: StoreFile<HistoryEntry>): (r: Option<seq<HistoryEntry>>)
    ensures r.None? <==> f.Unreadable?
    ensures r.Some? ==> r.value == LoadOrEmpty(f)
  {
    match f
    case Unreadable => None
    case _ => Some(LoadOrEmpty(f))
  }

  /** The search test: the lowercased tweet contains the lowercased query. */
  predicate Matches(e: HistoryEntry, query: string) {
    Contains(Lower(e.tweet), Lower(query))
  }

  /** `a` is `b` with some entries left out. */
  predicate IsSubsequence<T(==)>(a: seq<T>, b: seq<T>)
    decreases |b|
  {
    || a == []
    || (b != [] && ((a[0] == b[0] && IsSubsequence(a[1..], b[1..])) || IsSubsequence(a, b[1..])))
  }

  /** The reference definition of the search: keep the matching entries. */
  function Filter(h: seq<HistoryEntry>, query: string): (r: seq<HistoryEntry>)
    ensures |r| <= |h|
    ensures forall i :: 0 <= i < |r| ==> Matches(r[i], query)
  {
    if h == [] then []
    else
      var rest := Filter(h[1..], query);
      if Matches(h[0], query) then [h[0]] + rest else rest
  }

  /** The search keeps exactly the matching entries, each as often as it
      occurs in the log, in their original relative order. */
  lemma {:induction false} FilterKeepsExactlyMatches(h: seq<HistoryEntry>, query: string)
    ensures forall e :: multiset(Filter(h, query))[e] == if Matches(e, query) then multiset(h)[e] else 0
    ensures IsSubsequence(Filter(h, query), h)
    decreases |h|
  {
    if h != [] {
      FilterKeepsExactlyMatches(h[1..], query);
      assert h == [h[0]] + h[1..];
      var rest := Filter(h[1..], query);
      if Matches(h[0], query) {
        assert ([h[0]] + rest)[1..] == rest;
      }
    }
  }

  lemma {:induction false} FilterAppendOne(h: seq<HistoryEntry>, e: HistoryEntry, query: string)
    ensures Filter(h + [e], query) == Filter(h, query) + (if Matches(e, query) then [e] else [])
    decreases |h|
  {
    if h == [] {
      assert [e][1..] == [];
    } else {
      assert (h + [e])[1..] == h[1..] + [e];
      FilterAppendOne(h[1..], e, query);
    }
  }

  /** An empty query matches every entry, so it lists the whole log. */
  lemma {:induction false} EmptySearchListsAll(h: seq<HistoryEntry>)
    ensures Filter(h, []) == h
    decreases |h|
  {
    if h != [] {
      ContainsEmpty(Lower(h[0].tweet));
      assert Matches(h[0], []);
      EmptySearchListsAll(h[1..]);
      assert h == [h[0]] + h[1..];
    }
  }

  /** The search in the history view: one pass over the log, keeping the
      entries whose text contains the query, ignoring ASCII case. */
  method SearchHistory(h: seq<HistoryEntry>, query: string) returns (r: seq<HistoryEntry>)
    ensures forall i :: 0 <= i < |r| ==> Matches(r[i], query)
    ensures r == Filter(h, query)
  {
    r := [];
    var i := 0;
    while i < |h|
      invariant 0 <= i <= |h|
      invariant r == Filter(h[..i], query)
    {
      FilterAppendOne(h[..i], h[i], query);
      assert h[..i + 1] == h[..i] + [h[i]];
      if Matches(h[i], query) {
        r := r + [h[i]];
      }
      i := i + 1;
    }
    assert h[..i] == h;
  }

  /** The search ignores ASCII case on both sides. */
  lemma SearchIgnoresCase(e: HistoryEntry, query: string)
    ensures Matches(e, query) <==> Matches(e, Lower(query))
    ensures Matches(e, query) <==> Matches(HistoryEntry(Lower(e.tweet), e.timestamp), query)
  {
    LowerIdempotent(query);
    LowerIdempotent(e.tweet);
  }

  /** The pick for re-posting: the 1-based number the user typed, already
      read with `parseInt` (`None` for NaN), selects an entry only when it
      is in range. */
  function SelectForRepost(h: seq<HistoryEntry>, idx: Option<int>): (r: Option<string>)
    ensures r.Some? <==> idx.Some? && 1 <= idx.value <= |h|
    ensures r.Some? ==> r.value == h[idx.value - 1].tweet
  {
    match idx
    case Some(n) => if 0 < n <= |h| then Some(h[n - 1].tweet) else None
    case None => None
  }
}

=== FILE: retry.dfy ===
/** The decision logic of `generateContentWithRetry`: call the text model up
    to `retries` times, return the first response, retry an error whose
    message mentions 503 unless it came from the last allowed attempt,
    and rethrow every other error at once. The model's answers are an
    abstract sequence of attempt outcomes; the delay between attempts is
    not modelled. */
module Retry {
  import opened JsString

  /** The retry budget the program uses by default. */
  const DefaultRetries: int := 6

  /** What one call to the text model did. */
  datatype Attempt = Responded(text: string) | Errored(message: string)

  /** How the whole loop ended: a returned response, a rethrown error, or
      falling off the end of the loop, which yields `undefined` and can
      only happen when no attempt is allowed. */
  datatype Ending = Returned(text: string) | Thrown(message: string) | FellThrough

  datatype RetryRun = RetryRun(ending: Ending, attempts: nat)

  /** `err.message.includes('503')`. */
  predicate Is503(message: string) {
    Contains(message, "503")
  }

  /** Attempt `i` errored and the loop moved on to attempt `i + 1`. */
  predicate RetriedAt(outcomes: seq<Attempt>, retries: int, i: int)
    requires 0 <= i < |outcomes|
  {
    outcomes[i].Errored? && Is503(outcomes[i].message) && i < retries - 1
  }

  /** Every attempt before the `k`-th was a retried 503. */
  predicate RetriedBefore(outcomes: seq<Attempt>, retries: int, k: int)
    requires 0 <= k <= |outcomes|
  {
    forall j :: 0 <= j < k ==> RetriedAt(outcomes, retries, j)
  }

  /** The specification of a run: which endings are possible after how
      many attempts, stated without iteration. */
  predicate Explains(outcomes: seq<Attempt>, retries: int, run: RetryRun) {
    match run.ending
    case Returned(t) =>
      && 1 <= run.attempts <= retries && run.attempts <= |outcomes|
      && RetriedBefore(outcomes, retries, run.attempts - 1)
      && outcomes[run.attempts - 1] == Responded(t)
    case Thrown(m) =>
      && 1 <= run.attempts <= retries && run.attempts <= |outcomes|
      && RetriedBefore(outcomes, retries, run.attempts - 1)
      && outcomes[run.attempts - 1] == Errored(m)
      && (!Is503(m) || run.attempts == retries)
    case FellThrough =>
      retries <= 0 && run.attempts == 0
  }

  /** The loop as a recursive function, starting at attempt `i`. */
  function RetryFrom(outcomes: seq<Attempt>, retries: int, i: nat): (run: RetryRun)
    requires |outcomes| >= retries
    requires if retries > 0 then i < retries else i == 0
    decreases retries - i
  {
    if i >= retries then RetryRun(FellThrough, i)
    else match outcomes[i]
      case Responded(t) => RetryRun(Returned(t), i + 1)
      case Errored(m) =>
        if Is503(m) && i < retries - 1 then RetryFrom(outcomes, retries, i + 1)
        else RetryRun(Thrown(m), i + 1)
  }

  function RunRetry(outcomes: seq<Attempt>, retries: int): RetryRun
    requires |outcomes| >= retries
  {
    RetryFrom(outcomes, retries, 0)
  }

  lemma {:induction false} RetryFromExplains(outcomes: seq<Attempt>, retries: int, i: nat)
    requires |outcomes| >= retries
    requires if retries > 0 then i < retries else i == 0
    requires RetriedBefore(outcomes, retries, i)
    ensures Explains(outcomes, retries, RetryFrom(outcomes, retries, i))
    decreases retries - i
  {
    if i < retries {
      match outcomes[i]
      case Responded(t) =>
      case Errored(m) =>
        if Is503(m) && i < retries - 1 {
          RetryFromExplains(outcomes, retries, i + 1);
        }
    }
  }

  /** The recursive loop meets the specification. */
  lemma RunRetryExplains(outcomes: seq<Attempt>, retries: int)
    requires |outcomes| >= retries
    ensures Explains(outcomes, retries, RunRetry(outcomes, retries))
  {
    RetryFromExplains(outcomes, retries, 0);
  }

  /** The specification leaves no choice: at most one run explains a
      sequence of outcomes. */
  lemma ExplainsUnique(outcomes: seq<Attempt>, retries: int, a: RetryRun, b: RetryRun)
    requires Explains(outcomes, retries, a) && Explains(outcomes, retries, b)
    ensures a == b
  {
    if a.attempts >= 1 {
      LastAttemptNotRetried(outcomes, retries, a);
    }
    if b.attempts >= 1 {
      LastAttemptNotRetried(outcomes, retries, b);
    }
  }

  /** The attempt that ends a run is never one the loop moves on from. */
  lemma LastAttemptNotRetried(outcomes: seq<Attempt>, retries: int, run: RetryRun)
    requires Explains(outcomes, retries, run) && run.attempts >= 1
    ensures run.attempts <= |outcomes|
    ensures !RetriedAt(outcomes, retries, run.attempts - 1)
  {
  }

  /** The loop of the program, with the abstract outcomes standing in for
      the calls to the text model. */
  method GenerateContentWithRetry(outcomes: seq<Attempt>, retries: int) returns (run: RetryRun)
    requires |outcomes| >= retries
    ensures Explains(outcomes, retries, run)
    ensures run.attempts <= Max(retries, 0)
    ensures run == RunRetry(outcomes, retries)
  {
    var i := 0;
    while i < retries
      invariant 0 <= i && if retries > 0 then i < retries else i == 0
      invariant RetriedBefore(outcomes, retries, i)
    {
      match outcomes[i]
      case Responded(t) =>
        run := RetryRun(Returned(t), i + 1);
        RunRetryExplains(outcomes, retries);
        ExplainsUnique(outcomes, retries, run, RunRetry(outcomes, retries));
        return;
      case Errored(m) =>
        if Is503(m) && i < retries - 1 {
          i := i + 1;
        } else {
          run := RetryRun(Thrown(m), i + 1);
          RunRetryExplains(outcomes, retries);
          ExplainsUnique(outcomes, retries, run, RunRetry(outcomes, retries));
          return;
        }
    }
    run := RetryRun(FellThrough, 0);
    RunRetryExplains(outcomes, retries);
    ExplainsUnique(outcomes, retries, run, RunRetry(outcomes, retries));
  }

  /** The first response is returned: if every attempt before the `k`-th
      was a retried 503 and the `k`-th responded, that response ends the
      run after exactly `k + 1` attempts. */
  lemma FirstResponseReturned(outcomes: seq<Attempt>, retries: int, k: nat)
    requires |outcomes| >= retries && k < retries
    requires RetriedBefore(outcomes, retries, k)
    requires outcomes[k].Responded?
    ensures RunRetry(outcomes, retries) == RetryRun(Returned(outcomes[k].text), k + 1)
  {
    RunRetryExplains(outcomes, retries);
    ExplainsUnique(outcomes, retries, RunRetry(outcomes, retries),
                   RetryRun(Returned(outcomes[k].text), k + 1));
  }

  /** An error that is not a 503, or a 503 on the last allowed attempt, is
      rethrown at once and no further attempt is made. */
  lemma ErrorRethrown(outcomes: seq<Attempt>, retries: int, k: nat)
    requires |outcomes| >= retries && k < retries
    requires RetriedBefore(outcomes, retries, k)
    requires outcomes[k].Errored?
    requires !Is503(outcomes[k].message) || k == retries - 1
    ensures RunRetry(outcomes, retries) == RetryRun(Thrown(outcomes[k].message), k + 1)
  {
    RunRetryExplains(outcomes, retries);
    ExplainsUnique(outcomes, retries, RunRetry(outcomes, retries),
                   RetryRun(Thrown(outcomes[k].message), k + 1));
  }

  /** With the default budget, two overloaded answers followed by a
      response still yield that response, on the third attempt. */
  lemma TwoOverloadsThenSuccess(first: string, second: string, t: string, rest: seq<Attempt>)
    requires Is503(first) && Is503(second)
    requires |rest| >= 3
    ensures RunRetry([Errored(first), Errored(second), Responded(t)] + rest, DefaultRetries)
            == RetryRun(Returned(t), 3)
  {
    var o := [Errored(first), Errored(second), Responded(t)] + rest;
    assert RetriedAt(o, DefaultRetries, 0) && RetriedAt(o, DefaultRetries, 1);
    FirstResponseReturned(o, DefaultRetries, 2);
  }
}

=== FILE: server.dfy ===
/** The HTTP side of the server: the registry from session id to event
    stream transport, the routing of posted protocol messages, and the
    response of the `/create-post` route. */
module Server {
  import opened Common
  import McpTool

  /** An event-stream transport; `stream` identifies the open response it
      writes to. */
  datatype Transport = Transport(sessionId: string, stream: nat)

  /** The `transports` lookup object. */
  type Registry = map<string, Transport>

  /** A client opened `/sse`: its transport is stored under its session
      id. */
  function Connect(reg: Registry, t: Transport): (r: Registry)
    ensures r.Keys == reg.Keys + {t.sessionId}
    ensures r[t.sessionId] == t
    ensures forall k :: k in reg && k != t.sessionId ==> r[k] == reg[k]
  {
    reg[t.sessionId := t]
  }

  /** The stream of transport `t` closed: its session id is deleted. */
  function Close(reg: Registry, t: Transport): (r: Registry)
    ensures r.Keys == reg.Keys - {t.sessionId}
    ensures forall k :: k in r ==> r[k] == reg[k]
  {
    reg - {t.sessionId}
  }

  const NoTransportBody: string := "No transport found for sessionId"

  datatype Route = Dispatch(transport: Transport) | Reply(status: int, body: string)

  /** `/messages?sessionId=…`: hand the message to the session's
      transport, or answer 400. */
  function RouteMessage(reg: Registry, sessionId: string): (r: Route)
    ensures r.Dispatch? <==> sessionId in reg
    ensures r.Dispatch? ==> r.transport == reg[sessionId]
    ensures r.Reply? ==> r == Reply(400, NoTransportBody)
  {
    if sessionId in reg then Dispatch(reg[sessionId]) else Reply(400, NoTransportBody)
  }

  /** A message for a freshly connected session reaches its transport. */
  lemma ConnectThenRoute(reg: Registry, t: Transport)
    ensures RouteMessage(Connect(reg, t), t.sessionId) == Dispatch(t)
  {
  }

  /** After its stream closed, a session's messages get 400, while every
      other session is routed as before. */
  lemma CloseThenRoute(reg: Registry, t: Transport, other: string)
    requires other != t.sessionId
    ensures RouteMessage(Close(reg, t), t.sessionId) == Reply(400, NoTransportBody)
    ensures RouteMessage(Close(reg, t), other) == RouteMessage(reg, other)
  {
  }

  /** Connecting and then closing a new session leaves the registry as it
      was. */
  lemma ConnectCloseRestores(reg: Registry, t: Transport)
    requires t.sessionId !in reg
    ensures Close(Connect(reg, t), t) == reg
  {
  }

  /** The JSON response of `/create-post`. */
  datatype HttpResponse = HttpResponse(status: int, message: string, error: Option<string>)

  const PostedMessage: string := "Tweet posted successfully!"
  const FailedMessage: string := "Failed to post tweet."

  /** The response for what `createPost` returned or threw. */
  function CreatePostResponse(result: Result<seq<McpTool.ToolContent>>): (resp: HttpResponse)
    ensures resp.status == 200 <==> result.Success?
    ensures resp.status == 200 ==> resp == HttpResponse(200, PostedMessage, None)
    ensures resp.status != 200 ==> resp == HttpResponse(500, FailedMessage, Some(result.message))
  {
    match result
    case Success(_) => HttpResponse(200, PostedMessage, None)
    case Failure(m) => HttpResponse(500, FailedMessage, Some(m))
  }

  /** `POST /create-post` with body `{status, mediaPath}`. */
  function HandleCreatePost(status: string, mediaPath: Option<string>,
                            upload: McpTool.UploadRequest -> McpTool.UploadOutcome,
                            tweet: McpTool.TweetRequest -> McpTool.TweetOutcome): (resp: HttpResponse)
    ensures resp.status == 200 || resp.status == 500
    ensures resp.status == 200 <==>
              var run := McpTool.CreatePost(status, mediaPath, upload, tweet);
              run.tweetCall.Some? && tweet(run.tweetCall.value).Posted?
  {
    CreatePostResponse(McpTool.CreatePost(status, mediaPath, upload, tweet).result)
  }

  /** When the upload of the media file at `path` fails, the HTTP client
      gets a 500 whose error names the upload failure and its cause. */
  lemma UploadFailureResponse(status: string, path: string,
                              upload: McpTool.UploadRequest -> McpTool.UploadOutcome,
                              tweet: McpTool.TweetRequest -> McpTool.TweetOutcome)
    requires path != []
    requires upload(McpTool.UploadRequest(path, McpTool.GetMimeType(path))).UploadFailed?
    ensures HandleCreatePost(status, Some(path), upload, tweet) ==
              HttpResponse(500, FailedMessage, Some(McpTool.UploadErrorPrefix +
                upload(McpTool.UploadRequest(path, McpTool.GetMimeType(path))).cause))
  {
  }
}

=== FILE: tweet_text.dfy ===
/** Shaping of a tweet's text in the client's compose mode: truncation of
    an over-long text to the platform limit, choice of the hashtag and
    mention line, and appending that line to the body. */
module TweetText {
  import opened JsString
  import Retry

  /** The platform's maximum tweet length. */
  const Limit: int := 280

  /** A generated or edited text longer than the limit is cut to its first
      `Limit` characters; any other text is left alone. */
  function TruncateToLimit(t: string): (r: string)
    ensures |t| > Limit ==> |r| == Limit && t == r + t[Limit..]
    ensures |t| <= Limit ==> r == t
    ensures |r| <= Limit
  {
    if |t| > Limit then Slice(t, Limit) else t
  }

  /** A text already within the limit passes the cut unchanged, so
      cutting twice is cutting once. */
  lemma TruncateIdempotent(t: string)
    ensures TruncateToLimit(TruncateToLimit(t)) == TruncateToLimit(t)
  {
  }

  /** The first line of a trimmed model reply, or the empty string when
      the suggestion call failed: the suggested hashtags and mentions. */
  function SuggestionOf(run: Retry.RetryRun): (r: string)
    ensures '\n' !in r
    ensures run.ending.Returned? ==>
              |r| <= |Trim(run.ending.text)| && r == Trim(run.ending.text)[..|r|]
    ensures run.ending.Returned? && |r| < |Trim(run.ending.text)| ==>
              Trim(run.ending.text)[|r|] == '\n'
    ensures !run.ending.Returned? ==> r == []
  {
    match run.ending
    case Returned(text) => BeforeFirst(Trim(text), '\n')
    case _ => []
  }

  /** The hashtag line that is used: nothing when there was no
      suggestion; otherwise the user's edit, or the suggestion itself
      when the edit is blank. */
  function ChooseHashtags(suggestion: string, edited: string): (r: string)
    ensures r == [] <==> suggestion == []
    ensures r == [] || r == suggestion || r == edited
    ensures suggestion != [] && Trim(edited) != [] ==> r == edited
    ensures suggestion != [] && Trim(edited) == [] ==> r == suggestion
  {
    if suggestion == [] then []
    else if Trim(edited) == [] then suggestion
    else edited
  }

  /** An edit counts as blank exactly when every character of it is
      whitespace: such an edit keeps the suggestion, any other replaces
      it. */
  lemma BlankEditIsAllWhitespace(suggestion: string, edited: string)
    requires suggestion != []
    ensures (forall i :: 0 <= i < |edited| ==> IsWhitespace(edited[i])) ==>
              ChooseHashtags(suggestion, edited) == suggestion
    ensures (exists i :: 0 <= i < |edited| && !IsWhitespace(edited[i])) ==>
              ChooseHashtags(suggestion, edited) == edited
  {
    TrimEmptyIffAllWhitespace(edited);
  }

  /** Appending the hashtag line as the program writes it. When the joined
      text would pass the limit, the body is cut with `slice(0, Limit -
      |h| - 1)` first; a negative end makes `slice` count from the end of
      the body. */
  function CombineHashtagsAsWritten(t: string, h: string): (r: string)
    ensures h == [] ==> r == t
    ensures h != [] && |t| + 1 + |h| <= Limit ==> r == Trim(t + " " + h) && |r| <= Limit
    ensures h != [] && |t| + 1 + |h| > Limit && |h| <= Limit - 1 ==>
              r == Trim(t[..Limit - 1 - |h|] + " " + h) && |r| <= Limit
  {
    if h == [] then t
    else
      var combined := t + " " + h;
      if |combined| > Limit then JoinTags(Slice(t, Limit - |h| - 1), h)
      else JoinTags(t, h)
  }

  /** The trimmed join of a body and a hashtag line. */
  function JoinTags(body: string, h: string): (r: string)
    ensures |r| <= |body| + 1 + |h|
  {
    Trim(body + " " + h)
  }

  /** A hashtag line of `Limit` characters or more makes the cut end
      negative, so the body loses only `|h| - (Limit - 1)` characters from
      its end instead of all of them. */
  lemma OverlongHashtagsKeepBody(t: string, h: string)
    requires |h| >= Limit && |t| >= |h| - (Limit - 1)
    ensures CombineHashtagsAsWritten(t, h) == Trim(t[..|t| - (|h| - (Limit - 1))] + " " + h)
  {
  }

  /** Whenever the body is long enough for the negative cut to keep
      something and neither part has whitespace at its outer end, the
      tweet is `|t| + Limit` characters long: over the limit by the
      body's whole length. */
  lemma OverlongHashtagsExceedLimit(t: string, h: string)
    requires |h| >= Limit && |t| > |h| - (Limit - 1)
    requires !IsWhitespace(t[0]) && !IsWhitespace(h[|h| - 1])
    ensures |CombineHashtagsAsWritten(t, h)| == |t| + Limit
  {
    OverlongHashtagsKeepBody(t, h);
    var j := t[..|t| - (|h| - (Limit - 1))] + " " + h;
    assert j[0] == t[0] && j[|j| - 1] == h[|h| - 1];
  }

  /** Appending the hashtag line with the cut end clamped at zero: when
      the line leaves no room, the body is dropped entirely. */
  function CombineHashtags(t: string, h: string): (r: string)
    ensures h == [] ==> r == t
    ensures h != [] ==> |r| <= Max(Limit, |h|)
    ensures |h| <= Limit - 1 ==> r == CombineHashtagsAsWritten(t, h)
    ensures h != [] && |h| >= Limit - 1 ==> r == Trim(" " + h)
  {
    if h == [] then t
    else
      var combined := t + " " + h;
      if |combined| > Limit then
        var body := Slice(t, Max(0, Limit - |h| - 1));
        assert |h| >= Limit - 1 ==> body == [];
        JoinTags(body, h)
      else JoinTags(t, h)
  }

  /** With the clamp, a hashtag line that leaves no room and has no
      outer whitespace becomes the whole tweet. */
  lemma CombineHashtagsDropsBody(t: string, h: string)
    requires |h| >= Limit - 1 && Trimmed(h) && h != []
    ensures CombineHashtags(t, h) == h
  {
    assert (" " + h)[1..] == h;
    TrimStartKeepsTrimmed(h);
    TrimEndKeepsTrimmed(h);
  }

  /** A generated text as it reaches the confirmation prompt: truncated,
      then extended by the chosen hashtag line, as the program does it.
      The 280 bound holds only for hashtag lines shorter than the limit. */
  function ShapeGenerated(generated: string, suggestion: string, edited: string): (r: string)
    ensures |ChooseHashtags(suggestion, edited)| <= Limit - 1 ==> |r| <= Limit
    ensures suggestion == [] ==> r == TruncateToLimit(generated)
  {
    CombineHashtagsAsWritten(TruncateToLimit(generated), ChooseHashtags(suggestion, edited))
  }

  /** The same shaping with the corrected append: the total stays within
      the limit for every hashtag line of at most `Limit` characters. */
  function ShapeGeneratedCorrected(generated: string, suggestion: string, edited: string): (r: string)
    ensures |ChooseHashtags(suggestion, edited)| <= Limit ==> |r| <= Limit
    ensures |ChooseHashtags(suggestion, edited)| <= Limit - 1 ==>
              r == ShapeGenerated(generated, suggestion, edited)
    ensures suggestion == [] ==> r == TruncateToLimit(generated)
  {
    CombineHashtags(TruncateToLimit(generated), ChooseHashtags(suggestion, edited))
  }
}
